=== FILE: README.md ===
# StylableList: list styling and numbering for ODF-to-PDF conversion

This project models the list engine of the ODF-to-PDF converter: the class
`StylableList`, which turns the list styles of an OpenDocument text file into
the settings of a PDF list, and labels each paragraph appended to the list.
A list is one immutable record (`StylableList.ListState`). Each operation of
the class is a pure function from record to record:

- the constructor sets the defaults: unnumbered, with empty symbol, prefix and suffix;
- `applyStyles` finds the list properties of the list's level, or of the nearest lower level;
- it then picks the label kind (bullet character, image, or number) and resolves indentation;
- indentation comes in two dialects, OpenOffice's margin-left/text-indent and MS Word's space-before/min-label-width;
- `addElement` appends the elements of a list item;
- a paragraph becomes an item labelled with the symbol, with a generated number, or with nothing;
- a nested list has its indentation made relative to the parent list.

Modules follow the structure of the code:

| file | module | contents |
|---|---|---|
| wrappers.dfy | `Wrappers` | `Option`, standing for Java `null` |
| java_int.dfy | `JavaInt` | Java `int` and its 32-bit wrap-around |
| decimal.dfy | `Decimal` | `String.valueOf(int)` and its inverse |
| chunks.dfy | `Chunks` | fonts, label content, label-font fallback |
| styles.dfy | `Styles` | list properties per level, text properties, styles |
| level_cascade.dfy | `LevelCascade` | the downward search for a level's properties |
| indentation.dfy | `Indentation` | the two indentation dialects |
| stylable_list.dfy | `StylableList` | the list record and its operations |
| list_lemmas.dfy | `ListLemmas` | properties that relate several operations |

The code has these behaviours, and the model keeps them:

- When a level gives both a bullet character and an image, the image replaces the bullet as the list symbol.
- The numbering flags, prefix, suffix and start value are written only when the level gives them.
- Values from an earlier `applyStyles` therefore survive a later one. In particular, a list that was numbered stays numbered after a style whose level gives a bullet (`ListLemmas.NumberingSurvivesBulletStyle`). A second application does not fully replace the first.
- Applying the same style twice still gives the same list as applying it once (`ListLemmas.ApplyStylesIdempotent`).
- Every paragraph consumes a number, including a list item's unlabelled second paragraph. So after an item of two paragraphs numbered 6, the next item is numbered 8 (`ListLemmas.ParenthesisedNumberingExample`).
- A nested list keeps the parent's numbering unchanged because `first` is decremented once per nested list. The counter wraps like a Java `int`.
- A nested list's left indentation becomes its own value minus the parent's. This can be negative, so "indentation is never negative" holds only for the values `applyStyles` resolves.
- A negative list level is accepted. The level cascade then finds nothing, and the style is only recorded.
- An image symbol never reaches a label. An unnumbered label is a new text chunk built from the symbol's text content, so an image bullet contributes only the text the rendering library keeps for it (`ListLemmas.SymbolLabelIgnoresIndex`).
- The first element of a list item is the one offered a label, even if it is not a paragraph. If it is something else, such as a chunk, no paragraph of that item is labelled.

## Model

| member | source | states |
|---|---|---|
| JavaInt.Wrap | thirdparties-extension/org.odftoolkit.odfdom.converter.pdf/src/main/java/org/odftoolkit/odfdom/converter/pdf/internal/stylable/StylableList.java:76-79 | `first + list.size()` is Java `int` arithmetic: the result is the 32-bit value congruent to the exact sum, and equals it when it fits |
| JavaInt.WrapAbsorbs | thirdparties-extension/org.odftoolkit.odfdom.converter.pdf/src/main/java/org/odftoolkit/odfdom/converter/pdf/internal/stylable/StylableList.java:167-169 | wrapping an intermediate `int` result (such as `first--`) does not change a later sum, so `first--` followed by one more entry leaves the index as it was |
| Decimal.Digits | thirdparties-extension/org.odftoolkit.odfdom.converter.pdf/src/main/java/org/odftoolkit/odfdom/converter/pdf/internal/stylable/StylableList.java:143 | the decimal digits of a number are non-empty, all digits, and have no leading zero |
| Decimal.DecimalString | thirdparties-extension/org.odftoolkit.odfdom.converter.pdf/src/main/java/org/odftoolkit/odfdom/converter/pdf/internal/stylable/StylableList.java:143 | `String.valueOf(index)` starts with a minus sign exactly when the index is negative, is followed by at least one digit and only digits, and has no leading zero unless the index is 0 |
| Decimal.DecimalRoundTrip | thirdparties-extension/org.odftoolkit.odfdom.converter.pdf/src/main/java/org/odftoolkit/odfdom/converter/pdf/internal/stylable/StylableList.java:143 | `String.valueOf(index)` is read back as `index` for every `int`, negative ones included |
| Decimal.DecimalInjective | thirdparties-extension/org.odftoolkit.odfdom.converter.pdf/src/main/java/org/odftoolkit/odfdom/converter/pdf/internal/stylable/StylableList.java:143 | distinct indices get distinct decimal labels |
| Chunks.FirstStyledRun | thirdparties-extension/org.odftoolkit.odfdom.converter.pdf/src/main/java/org/odftoolkit/odfdom/converter/pdf/internal/stylable/StylableList.java:111-120 | the scan over a paragraph's chunks finds the first chunk whose font is not standard, or reports that every chunk is standard |
| Chunks.LabelFont | thirdparties-extension/org.odftoolkit.odfdom.converter.pdf/src/main/java/org/odftoolkit/odfdom/converter/pdf/internal/stylable/StylableList.java:107-126 | the label font is the symbol's font if that is not standard; else the first non-standard chunk font; else the paragraph's font, even when that is standard |
| LevelCascade.NearestLevel | thirdparties-extension/org.odftoolkit.odfdom.converter.pdf/src/main/java/org/odftoolkit/odfdom/converter/pdf/internal/stylable/StylableList.java:180-185 | the level used is the greatest key `k` of the map with `0 <= k <= listLevel`; when there is none (always so for a negative level) nothing is found |
| LevelCascade.LookupLevel | thirdparties-extension/org.odftoolkit.odfdom.converter.pdf/src/main/java/org/odftoolkit/odfdom/converter/pdf/internal/stylable/StylableList.java:180-185 | properties are found exactly when some key lies in `0..listLevel`, and they are those of the nearest such key |
| LevelCascade.FindListProperties | thirdparties-extension/org.odftoolkit.odfdom.converter.pdf/src/main/java/org/odftoolkit/odfdom/converter/pdf/internal/stylable/StylableList.java:180-185 | the loop in `applyStyles` (from `listLevel` down, while `i >= 0` and nothing is found) returns the nearest level's properties |
| Indentation.ResolveIndent | thirdparties-extension/org.odftoolkit.odfdom.converter.pdf/src/main/java/org/odftoolkit/odfdom/converter/pdf/internal/stylable/StylableList.java:279-295 | margin-left with text-indent is read first and gives `max(marginLeft + textIndent, 0)` and `max(-textIndent, 0)`; otherwise space-before with min-label-width gives `max(spaceBefore - minLabelWidth, 0)` and `max(minLabelWidth, 0)`; with neither pair complete the indentation is unchanged; resolved values are never negative |
| Indentation.ResolveKeepsNonNegative | thirdparties-extension/org.odftoolkit.odfdom.converter.pdf/src/main/java/org/odftoolkit/odfdom/converter/pdf/internal/stylable/StylableList.java:284-295 | a list whose indentation is not negative keeps it non-negative through resolution |
| Indentation.MarginDialectWins | thirdparties-extension/org.odftoolkit.odfdom.converter.pdf/src/main/java/org/odftoolkit/odfdom/converter/pdf/internal/stylable/StylableList.java:284-290 | with margin-left and text-indent given, space-before, min-label-width and the current indentation make no difference |
| Indentation.MarginDialectKeepsTextAtMargin | thirdparties-extension/org.odftoolkit.odfdom.converter.pdf/src/main/java/org/odftoolkit/odfdom/converter/pdf/internal/stylable/StylableList.java:284-289 | for a hanging indent the item text starts at margin-left and the label gets exactly the hang as its width |
| Indentation.SpaceDialectKeepsTextAtSpaceBefore | thirdparties-extension/org.odftoolkit.odfdom.converter.pdf/src/main/java/org/odftoolkit/odfdom/converter/pdf/internal/stylable/StylableList.java:290-295 | in the MS Word dialect the item text starts at space-before and the label gets its minimum width, when that width fits |
| StylableList.New | thirdparties-extension/org.odftoolkit.odfdom.converter.pdf/src/main/java/org/odftoolkit/odfdom/converter/pdf/internal/stylable/StylableList.java:62-74 | a new list belongs to the given parent at the given level, has no style recorded and no items, numbers from 1, is neither numbered, lettered, roman nor lower-case, has empty symbol, prefix and suffix, a standard symbol font and zero indentation |
| StylableList.GetIndex | thirdparties-extension/org.odftoolkit.odfdom.converter.pdf/src/main/java/org/odftoolkit/odfdom/converter/pdf/internal/stylable/StylableList.java:76-79 | `getIndex()` is `first + list.size()` in Java `int` arithmetic: congruent to the exact sum modulo 2^32, and equal to it when it fits in an `int` |
| StylableList.SetFirst | thirdparties-extension/org.odftoolkit.odfdom.converter.pdf/src/main/java/org/odftoolkit/odfdom/converter/pdf/internal/stylable/StylableList.java:81-84 | after `setFirst(f)` the next index is `f` plus the number of entries, in `int` arithmetic; nothing but `first` changes |
| StylableList.GetLastStyleApplied | thirdparties-extension/org.odftoolkit.odfdom.converter.pdf/src/main/java/org/odftoolkit/odfdom/converter/pdf/internal/stylable/StylableList.java:300-303 | returns the style recorded by the last `applyStyles`, none before the first |
| StylableList.GetParent | thirdparties-extension/org.odftoolkit.odfdom.converter.pdf/src/main/java/org/odftoolkit/odfdom/converter/pdf/internal/stylable/StylableList.java:305-308 | returns the container the list was constructed with |
| StylableList.ApplyStyles | thirdparties-extension/org.odftoolkit.odfdom.converter.pdf/src/main/java/org/odftoolkit/odfdom/converter/pdf/internal/stylable/StylableList.java:173-186 | the style is always recorded; owner, level and entries never change; with no map or no level found nothing else changes; non-negative indentation stays non-negative |
| StylableList.Numeral | thirdparties-extension/org.odftoolkit.odfdom.converter.pdf/src/main/java/org/odftoolkit/odfdom/converter/pdf/internal/stylable/StylableList.java:133-144 | letters take precedence over roman numerals and roman numerals over decimal; otherwise the numeral is `String.valueOf(index)`, which reads back as the index |
| StylableList.ItemLabel | thirdparties-extension/org.odftoolkit.odfdom.converter.pdf/src/main/java/org/odftoolkit/odfdom/converter/pdf/internal/stylable/StylableList.java:127-156 | every label is a text chunk drawn in the font it is given, and is empty when no label is asked for |
| StylableList.AddPart | thirdparties-extension/org.odftoolkit.odfdom.converter.pdf/src/main/java/org/odftoolkit/odfdom/converter/pdf/internal/stylable/StylableList.java:100-171 | a paragraph (a list item included) appends one item and advances the index by one; an unlabelled paragraph gets an empty label; a nested list appends one entry and keeps the index; anything else changes nothing; earlier entries and all other settings are kept |
| StylableList.AppendItem | thirdparties-extension/org.odftoolkit.odfdom.converter.pdf/src/main/java/org/odftoolkit/odfdom/converter/pdf/internal/stylable/StylableList.java:103-159 | a paragraph adds one item after the existing entries and advances the index by one; the item wraps the paragraph; an unlabelled paragraph gets an empty label; only the entries change |
| StylableList.AppendNested | thirdparties-extension/org.odftoolkit.odfdom.converter.pdf/src/main/java/org/odftoolkit/odfdom/converter/pdf/internal/stylable/StylableList.java:161-170 | a nested list adds one nested entry after the existing ones, and lowering `first` by one keeps the index unchanged; only `first` and the entries change |
| StylableList.AddParts | thirdparties-extension/org.odftoolkit.odfdom.converter.pdf/src/main/java/org/odftoolkit/odfdom/converter/pdf/internal/stylable/StylableList.java:88-97 | appending a list item's elements only adds entries after the existing ones and changes no setting except `first`; which entries are added is stated by `ListLemmas.AddPartsAppendsEntries` |
| StylableList.AddElement | thirdparties-extension/org.odftoolkit.odfdom.converter.pdf/src/main/java/org/odftoolkit/odfdom/converter/pdf/internal/stylable/StylableList.java:86-98 | only a list item has an effect; earlier entries and all settings except `first` are kept; which entries are added is stated by `ListLemmas.ListItemAppendsEntries` |
| ListLemmas.NoLevelIsNoOp | thirdparties-extension/org.odftoolkit.odfdom.converter.pdf/src/main/java/org/odftoolkit/odfdom/converter/pdf/internal/stylable/StylableList.java:175-186 | with a null map, or no key in `0..listLevel`, applying a style only records it |
| ListLemmas.OnlyNearestLevelMatters | thirdparties-extension/org.odftoolkit.odfdom.converter.pdf/src/main/java/org/odftoolkit/odfdom/converter/pdf/internal/stylable/StylableList.java:180-186 | removing every level but the nearest one from the map gives the same list |
| ListLemmas.ImageOverridesBullet | thirdparties-extension/org.odftoolkit.odfdom.converter.pdf/src/main/java/org/odftoolkit/odfdom/converter/pdf/internal/stylable/StylableList.java:188-227 | a level's image becomes the list symbol whether or not the level also gives a bullet |
| ListLemmas.BulletBecomesSymbol | thirdparties-extension/org.odftoolkit.odfdom.converter.pdf/src/main/java/org/odftoolkit/odfdom/converter/pdf/internal/stylable/StylableList.java:188-208 | a bullet without an image becomes the symbol, in the style's text font only when the label style is specified and that font exists |
| ListLemmas.BulletOrImageKeepsNumbering | thirdparties-extension/org.odftoolkit.odfdom.converter.pdf/src/main/java/org/odftoolkit/odfdom/converter/pdf/internal/stylable/StylableList.java:229-277 | the numeric branch runs only without bullet and image: otherwise start value, prefix, suffix and format flags are left as they were |
| ListLemmas.NumericBranchSettings | thirdparties-extension/org.odftoolkit.odfdom.converter.pdf/src/main/java/org/odftoolkit/odfdom/converter/pdf/internal/stylable/StylableList.java:229-277 | in the numeric branch each given setting is written: the start value sets `first`; the prefix and suffix are set and the symbol becomes their concatenation; a number format sets numbered and copies its letter, roman and lower-case flags; each absent setting keeps its old value |
| ListLemmas.IndentationFromProperties | thirdparties-extension/org.odftoolkit.odfdom.converter.pdf/src/main/java/org/odftoolkit/odfdom/converter/pdf/internal/stylable/StylableList.java:279-295 | the list's indentation after a style is the resolution of the found level's properties |
| ListLemmas.ApplyStylesIdempotent | thirdparties-extension/org.odftoolkit.odfdom.converter.pdf/src/main/java/org/odftoolkit/odfdom/converter/pdf/internal/stylable/StylableList.java:173-298 | applying a style twice gives the same list as applying it once |
| ListLemmas.NumberingSurvivesBulletStyle | thirdparties-extension/org.odftoolkit.odfdom.converter.pdf/src/main/java/org/odftoolkit/odfdom/converter/pdf/internal/stylable/StylableList.java:267-274 | a numbered list restyled with a bullet stays numbered, and its next paragraph still gets a generated number |
| ListLemmas.ParagraphConsumesNumber | thirdparties-extension/org.odftoolkit.odfdom.converter.pdf/src/main/java/org/odftoolkit/odfdom/converter/pdf/internal/stylable/StylableList.java:127-159 | every paragraph, labelled or not, advances `getIndex()` by one; by exactly one below the largest `int` |
| ListLemmas.NestedListKeepsIndex | thirdparties-extension/org.odftoolkit.odfdom.converter.pdf/src/main/java/org/odftoolkit/odfdom/converter/pdf/internal/stylable/StylableList.java:161-170 | a nested list leaves `getIndex()` unchanged; it is appended with its left indentation minus the parent's; the parent's own indentation is untouched |
| ListLemmas.ItemLayout | thirdparties-extension/org.odftoolkit.odfdom.converter.pdf/src/main/java/org/odftoolkit/odfdom/converter/pdf/internal/stylable/StylableList.java:103-159 | each new item wraps the paragraph, is indented left by the symbol indent and right by 0, and has a text label in the fallback font |
| ListLemmas.NumberedLabelShowsIndex | thirdparties-extension/org.odftoolkit.odfdom.converter.pdf/src/main/java/org/odftoolkit/odfdom/converter/pdf/internal/stylable/StylableList.java:129-147 | a numbered label is prefix, numeral of `first + list.size()`, suffix; letters take precedence over roman numerals and roman over decimal; the decimal numeral is exactly `String.valueOf(index)`, which reads back as the index |
| ListLemmas.SymbolLabelIgnoresIndex | thirdparties-extension/org.odftoolkit.odfdom.converter.pdf/src/main/java/org/odftoolkit/odfdom/converter/pdf/internal/stylable/StylableList.java:148-151 | an unnumbered label is a new text chunk built from the symbol's content: a text symbol is copied, an image symbol gives only the library's text for the image; it does not depend on `first` or on the entries so far |
| ListLemmas.AddPartsAdvancesIndex | thirdparties-extension/org.odftoolkit.odfdom.converter.pdf/src/main/java/org/odftoolkit/odfdom/converter/pdf/internal/stylable/StylableList.java:88-97 | appending a sequence of elements advances the index by the number of paragraphs among them |
| ListLemmas.ListItemAdvancesIndex | thirdparties-extension/org.odftoolkit.odfdom.converter.pdf/src/main/java/org/odftoolkit/odfdom/converter/pdf/internal/stylable/StylableList.java:86-98 | appending a list item advances the index by its number of paragraphs |
| ListLemmas.UnlabelledPartsGetEmptyLabels | thirdparties-extension/org.odftoolkit.odfdom.converter.pdf/src/main/java/org/odftoolkit/odfdom/converter/pdf/internal/stylable/StylableList.java:153-156 | elements appended without a label all produce items with an empty label |
| ListLemmas.OnlyFirstElementLabelled | thirdparties-extension/org.odftoolkit.odfdom.converter.pdf/src/main/java/org/odftoolkit/odfdom/converter/pdf/internal/stylable/StylableList.java:88-97 | of a list item's elements only the first is offered a label: every item produced by a later element has an empty label |
| ListLemmas.AddSingleElementItem | thirdparties-extension/org.odftoolkit.odfdom.converter.pdf/src/main/java/org/odftoolkit/odfdom/converter/pdf/internal/stylable/StylableList.java:86-98 | a list item with one element appends that element with a label |
| ListLemmas.AddTwoElementItem | thirdparties-extension/org.odftoolkit.odfdom.converter.pdf/src/main/java/org/odftoolkit/odfdom/converter/pdf/internal/stylable/StylableList.java:86-98 | a list item with two elements appends the first with a label and the second without |
| ListLemmas.AddPartsAppendsEntries | thirdparties-extension/org.odftoolkit.odfdom.converter.pdf/src/main/java/org/odftoolkit/odfdom/converter/pdf/internal/stylable/StylableList.java:88-171 | the loop appends one entry per element that is not ignored, in order: an item whose body is the paragraph, indented by `symbolIndent` on the left and 0 on the right, whose label takes the symbol's font or the first styled run's font; or the nested list with its indentation made relative to this list; nothing else is appended; the first element's entry is exactly what appending it with `addLabel` gives |
| ListLemmas.ListItemAppendsEntries | thirdparties-extension/org.odftoolkit.odfdom.converter.pdf/src/main/java/org/odftoolkit/odfdom/converter/pdf/internal/stylable/StylableList.java:86-98 | a list item appends one entry per paragraph or nested list among its elements, in order (items indented by `symbolIndent`, labels in the fallback font, nested lists re-indented), and its first element is appended with a label |
| ListLemmas.ExampleListNumbering | thirdparties-extension/org.odftoolkit.odfdom.converter.pdf/src/main/java/org/odftoolkit/odfdom/converter/pdf/internal/stylable/StylableList.java:247-274 | a level with start value 5, prefix "(", suffix ")" and a decimal format makes a fresh list numbered from 5 in decimal with those affixes |
| ListLemmas.ParenthesisedNumberingExample | thirdparties-extension/org.odftoolkit.odfdom.converter.pdf/src/main/java/org/odftoolkit/odfdom/converter/pdf/internal/stylable/StylableList.java:127-169 | on that list, a paragraph, a nested list, a labelled and an unlabelled paragraph, then a paragraph are labelled "(5)", none, "(6)", "", "(8)" |
| ListLemmas.AccessorsAfterAppending | thirdparties-extension/org.odftoolkit.odfdom.converter.pdf/src/main/java/org/odftoolkit/odfdom/converter/pdf/internal/stylable/StylableList.java:300-308 | `getLastStyleApplied()` returns the last style applied and `getParent()` the owner, whatever was appended afterwards |

## Left out

- Roman numerals and alphabetic numbering come from the rendering library's `RomanNumberFactory` and `RomanAlphabetFactory`, whose code is not part of this model. They enter as two functions of a `StylableList.Library` value, about which nothing is assumed. Decimal numbering is modelled in full.
- The image library's absolute width and height scaling of a marker image is not modelled. An image symbol is only a reference to the image.
- An item label is `new Chunk(symbol.getContent(), symbolFont)`, a text chunk. For an image symbol, `getContent()` is whatever text the rendering library keeps for an image chunk. That text enters as the `imageText` function of a `StylableList.Library` value, about which nothing is assumed. So the model, like the code, never puts an image in a label.
- Paragraphs are reduced to the fonts of their chunks and their own font. Fonts are reduced to "standard or not"; metrics and loading are not modelled.
- Elements other than paragraphs, list items and lists are one `OtherElement` case, and the private `addElement` ignores them.
- `getElement`, `getITextContainer` and `setITextContainer` only hand back container references. They have no behaviour to state.
- `setAutoindent(false)` in the constructor is a layout flag of the rendering library that this code never reads. The unused `ownerDocument` constructor argument is not modelled either.
- `StylableList.New` assumes that the rendering library's list starts numbering at 1 with zero indentation. Those defaults live in the library's `List` class, which is not part of this model.
- A map key bound to a null value is treated like a missing key, as Java's `Map.get` does. The model cannot represent such an entry.
- StylableList.AddPart: a nested list is appended as a copy carrying the adjusted indentation, not as a shared object. The code instead changes the nested `List` object itself. If the same list is appended twice, the code leaves indentation L - 2P in both entries, where L is the list's own indentation and P is the parent's. The model gives L - P in each entry. Changes made to the nested list after it is appended do not appear in the parent's entry either.
- StylableList.ApplyStyles: takes a style, never `null`. In the code, `applyStyles(null)` records `null` as the last style and then throws a `NullPointerException` on `style.getListPropertiesMap()`. That failing path is not modelled.
- Indentation.ResolveIndent: computes on exact reals, not on Java `float`, so float rounding of `marginLeft + textIndent` and `spaceBefore - minLabelWidth` is not modelled.
- ListLemmas.ParenthesisedNumberingExample: stated on the private `addElement` steps rather than in one lemma over the four list items. `ListLemmas.AddSingleElementItem` and `ListLemmas.AddTwoElementItem` connect each list item to those steps.

=== FILE: chunks.dfy ===
/** The rendering library's styled-text primitives, reduced to what the list
    engine inspects: fonts, label content and the font of a label. */
module Chunks {
  import opened Wrappers

  /** A font is either the library's default ("standard") font or one set
      explicitly; metrics and loading are not part of this model. */
  datatype Font = StandardFont | StyledFont(name: string)

  predicate IsStandardFont(f: Font) {
    f.StandardFont?
  }

  /** A marker image, known only by identity. */
  type ImageRef = nat

  /** What a chunk shows: text, or an image. */
  datatype Content = Text(text: string) | Picture(image: ImageRef)

  /** A piece of styled text: a list symbol or an item label. */
  datatype Chunk = Chunk(content: Content, font: Font)

  /** `runs[i]` is explicitly styled and no run before it is. */
  ghost predicate IsFirstStyledRun(runs: seq<Font>, i: int) {
    && 0 <= i < |runs|
    && !IsStandardFont(runs[i])
    && forall j :: 0 <= j < i ==> IsStandardFont(runs[j])
  }

  /** Position of the first run whose font is not the standard one. */
  function FirstStyledRun(runs: seq<Font>): (r: Option<nat>)
    ensures r.Some? ==> r.value < |runs| && !IsStandardFont(runs[r.value])
    ensures r.Some? ==> forall j :: 0 <= j < r.value ==> IsStandardFont(runs[j])
    ensures r.None? ==> forall j :: 0 <= j < |runs| ==> IsStandardFont(runs[j])
    decreases |runs|
  {
    if |runs| == 0 then None
    else if !IsStandardFont(runs[0]) then Some(0)
    else match FirstStyledRun(runs[1..])
      case None => None
      case Some(k) => Some(k + 1)
  }

  /** The font an item label is drawn in: the list symbol's font when it was
      set explicitly, else the first explicitly styled run of the paragraph,
      else the paragraph's own font (standard or not). */
  function LabelFont(symbolFont: Font, runs: seq<Font>, paragraphFont: Font): (f: Font)
    ensures !IsStandardFont(symbolFont) ==> f == symbolFont
    ensures forall i :: IsStandardFont(symbolFont) && IsFirstStyledRun(runs, i) ==> f == runs[i]
    ensures IsStandardFont(symbolFont) && (forall i :: 0 <= i < |runs| ==> IsStandardFont(runs[i])) ==>
      f == paragraphFont
  {
    if !IsStandardFont(symbolFont) then symbolFont
    else match FirstStyledRun(runs)
      case Some(k) => runs[k]
      case None => paragraphFont
  }
}

=== FILE: decimal.dfy ===
/** Decimal rendering of an `int`, as Java's `String.valueOf(int)` produces it,
    with the parser that inverts it. */
module Decimal {

  predicate IsDigit(c: char) {
    '0' <= c <= '9'
  }

  function DigitChar(d: int): (c: char)
    requires 0 <= d < 10
    ensures IsDigit(c)
  {
    ('0' as int + d) as char
  }

  function DigitValue(c: char): int {
    c as int - '0' as int
  }

  /** The digits of `n` in base ten, most significant first, without leading zeros. */
  function Digits(n: nat): (s: string)
    ensures |s| > 0
    ensures forall i :: 0 <= i < |s| ==> IsDigit(s[i])
    ensures s[0] == '0' ==> n == 0
    decreases n
  {
    if n < 10 then [DigitChar(n)] else Digits(n / 10) + [DigitChar(n % 10)]
  }

  /** `String.valueOf(n)`: a minus sign for negative values, then the digits of |n|. */
  function DecimalString(n: int): (s: string)
    ensures |s| > 0
    ensures s[0] == '-' <==> n < 0
    ensures |s| > (if n < 0 then 1 else 0)
    ensures forall i :: (if n < 0 then 1 else 0) <= i < |s| ==> IsDigit(s[i])
    ensures s[if n < 0 then 1 else 0] == '0' ==> n == 0
  {
    if n < 0 then "-" + Digits(-n) else Digits(n)
  }

  /** Reads a string of decimal digits back as a number. */
  function ParseDigits(s: string): int
    decreases |s|
  {
    if |s| == 0 then 0 else ParseDigits(s[..|s| - 1]) * 10 + DigitValue(s[|s| - 1])
  }

  /** Reads an optionally signed decimal string back as a number. */
  function ParseDecimal(s: string): int {
    if |s| > 0 && s[0] == '-' then -ParseDigits(s[1..]) else ParseDigits(s)
  }

  lemma {:induction false} ParseDigitsInverse(n: nat)
    ensures ParseDigits(Digits(n)) == n
    decreases n
  {
    if n >= 10 {
      var d := Digits(n / 10);
      var s := d + [DigitChar(n % 10)];
      assert s[..|s| - 1] == d;
      ParseDigitsInverse(n / 10);
    }
  }

  /** Every `int` is recovered from its decimal rendering. */
  lemma DecimalRoundTrip(n: int)
    ensures ParseDecimal(DecimalString(n)) == n
  {
    if n < 0 {
      var s := DecimalString(n);
      assert s[1..] == Digits(-n);
      ParseDigitsInverse(-n);
    } else {
      ParseDigitsInverse(n);
    }
  }

  /** Distinct numbers render as distinct strings. */
  lemma DecimalInjective(a: int, b: int)
    ensures DecimalString(a) == DecimalString(b) ==> a == b
  {
    DecimalRoundTrip(a);
    DecimalRoundTrip(b);
  }
}

=== FILE: indentation.dfy ===
/** Reconciling the two ways list indentation is written in the styles of
    OpenDocument files: margin-left with text-indent (the form OpenOffice
    writes) and space-before with min-label-width (the form MS Word writes). */
module Indentation {
  import opened Wrappers
  import opened Styles

  /** A list's left indentation and the width reserved for its labels
      (the rendering library's "symbol indent"). */
  datatype Indent = Indent(left: real, labelWidth: real)

  function Max(a: real, b: real): (m: real)
    ensures m >= a && m >= b && (m == a || m == b)
  {
    if a >= b then a else b
  }

  /** Where the body text of an item starts: after the left indentation and the label. */
  function TextColumn(i: Indent): real {
    i.left + i.labelWidth
  }

  predicate IsNonNegative(i: Indent) {
    i.left >= 0.0 && i.labelWidth >= 0.0
  }

  /** Both margin-left and text-indent are given. */
  predicate HasMarginDialect(p: ListProperties) {
    p.marginLeft.Some? && p.textIndent.Some?
  }

  /** Both space-before and min-label-width are given. */
  predicate HasSpaceDialect(p: ListProperties) {
    p.spaceBefore.Some? && p.minLabelWidth.Some?
  }

  /** The indentation after applying `p` to a list currently indented `cur`.
      The margin dialect is read first; when neither pair is complete the
      list keeps its indentation. */
  function ResolveIndent(p: ListProperties, cur: Indent): (r: Indent)
    ensures HasMarginDialect(p) ==>
      r == Indent(Max(p.marginLeft.value + p.textIndent.value, 0.0), Max(-p.textIndent.value, 0.0))
    ensures !HasMarginDialect(p) && HasSpaceDialect(p) ==>
      r == Indent(Max(p.spaceBefore.value - p.minLabelWidth.value, 0.0), Max(p.minLabelWidth.value, 0.0))
    ensures !HasMarginDialect(p) && !HasSpaceDialect(p) ==> r == cur
    ensures HasMarginDialect(p) || HasSpaceDialect(p) ==> IsNonNegative(r)
  {
    if HasMarginDialect(p) then
      var marginLeft := p.marginLeft.value;
      var textIndent := p.textIndent.value;
      Indent(Max(marginLeft + textIndent, 0.0), Max(-textIndent, 0.0))
    else if HasSpaceDialect(p) then
      var spaceBefore := p.spaceBefore.value;
      var minLabelWidth := p.minLabelWidth.value;
      Indent(Max(spaceBefore - minLabelWidth, 0.0), Max(minLabelWidth, 0.0))
    else
      cur
  }

  /** Resolution never makes a non-negative indentation negative. */
  lemma ResolveKeepsNonNegative(p: ListProperties, cur: Indent)
    requires IsNonNegative(cur)
    ensures IsNonNegative(ResolveIndent(p, cur))
  {
  }

  /** With margin-left and text-indent both given, the space-before and
      min-label-width values, and the current indentation, are irrelevant. */
  lemma MarginDialectWins(p: ListProperties, spaceBefore: Option<real>, minLabelWidth: Option<real>, cur: Indent, other: Indent)
    requires HasMarginDialect(p)
    ensures ResolveIndent(p.(spaceBefore := spaceBefore, minLabelWidth := minLabelWidth), other) == ResolveIndent(p, cur)
  {
  }

  /** A hanging indent (negative text-indent that does not reach past the
      margin) puts the label at margin-left + text-indent, keeps the body
      text at margin-left, and reserves exactly the hang for the label. */
  lemma MarginDialectKeepsTextAtMargin(p: ListProperties, cur: Indent)
    requires HasMarginDialect(p)
    requires p.textIndent.value <= 0.0 <= p.marginLeft.value + p.textIndent.value
    ensures TextColumn(ResolveIndent(p, cur)) == p.marginLeft.value
    ensures ResolveIndent(p, cur).labelWidth == -p.textIndent.value
  {
  }

  /** In the space-before dialect the body text starts at space-before and
      the label gets its minimum width, whenever that width fits. */
  lemma SpaceDialectKeepsTextAtSpaceBefore(p: ListProperties, cur: Indent)
    requires !HasMarginDialect(p) && HasSpaceDialect(p)
    requires 0.0 <= p.minLabelWidth.value <= p.spaceBefore.value
    ensures TextColumn(ResolveIndent(p, cur)) == p.spaceBefore.value
    ensures ResolveIndent(p, cur).labelWidth == p.minLabelWidth.value
  {
  }
}

=== FILE: java_int.dfy ===
/** Java's 32-bit two's-complement `int`, in which list numbering is computed. */
module JavaInt {

  const MinInt: int := -0x8000_0000
  const MaxInt: int := 0x7fff_ffff
  const Modulus: int := 0x1_0000_0000

  /** A value a Java `int` variable can hold. */
  type Int32 = x: int | MinInt <= x <= MaxInt

  /** The value Java `int` arithmetic yields when the exact result is `x`:
      the one `Int32` congruent to `x` modulo 2^32. */
  function Wrap(x: int): (r: Int32)
    ensures (x - r) % Modulus == 0
    ensures MinInt <= x <= MaxInt ==> r == x
  {
    (x - MinInt) % Modulus + MinInt
  }

  /** Wrapping an intermediate result does not change the final one, so a
      chain of `int` additions may be wrapped once at the end. */
  lemma WrapAbsorbs(a: int, b: int)
    ensures Wrap(Wrap(a) + b) == Wrap(a + b)
  {
  }
}

=== FILE: level_cascade.dfy ===
/** Finding the list properties that apply at a nesting level: those of the
    level itself or, failing that, of the nearest lower level. */
module LevelCascade {
  import opened Wrappers

  /** `k` is the greatest key of `m` in the range 0..level. */
  ghost predicate IsNearestLevel<V>(m: map<int, V>, level: int, k: int) {
    && 0 <= k <= level
    && k in m
    && forall j :: k < j <= level ==> j !in m
  }

  /** The level whose properties apply at `level`, if any level from `level`
      down to 0 has some; none for a negative `level`. */
  function NearestLevel<V>(m: map<int, V>, level: int): (r: Option<int>)
    ensures r.Some? ==> IsNearestLevel(m, level, r.value)
    ensures r.None? ==> forall k :: 0 <= k <= level ==> k !in m
    decreases level
  {
    if level < 0 then None
    else if level in m then Some(level)
    else NearestLevel(m, level - 1)
  }

  /** The properties that apply at `level`. */
  function LookupLevel<V>(m: map<int, V>, level: int): (r: Option<V>)
    ensures r.Some? <==> exists k :: 0 <= k <= level && k in m
    ensures forall k :: IsNearestLevel(m, level, k) ==> r == Some(m[k])
  {
    match NearestLevel(m, level)
    case None => None
    case Some(k) => Some(m[k])
  }

  /** The downward scan `applyStyles` performs: try `level`, then each lower
      level, stopping at the first that has properties or below level 0. */
  method FindListProperties<V>(m: map<int, V>, level: int) returns (r: Option<V>)
    ensures r == LookupLevel(m, level)
  {
    r := None;
    var i := level;
    while i >= 0 && r.None?
      invariant i <= level
      invariant r.None? ==> NearestLevel(m, level) == NearestLevel(m, i)
      invariant r.Some? ==> r == LookupLevel(m, level)
      decreases i + 1
    {
      if i in m {
        r := Some(m[i]);
      }
      i := i - 1;
    }
  }
}

=== FILE: list_lemmas.dfy ===
/** Properties of the list engine: what applying a style does and does not
    change, and how appending items numbers and labels them. */
module ListLemmas {
  import opened Wrappers
  import opened JavaInt
  import opened Decimal
  import opened Chunks
  import opened Styles
  import opened LevelCascade
  import opened Indentation
  import opened StylableList

  // ------------------------------------------------------- applying styles

  /** Without a list-properties map, or without properties at any level from
      the list's own down to 0 (always so for a negative level), applying a
      style only records it. */
  lemma NoLevelIsNoOp(s: ListState, style: Style)
    requires style.listPropertiesMap.None? ||
             forall k :: 0 <= k <= s.level ==> k !in style.listPropertiesMap.value
    ensures ApplyStyles(s, style) == s.(lastStyleApplied := Some(style))
  {
  }

  /** Only the nearest level at or below the list's level matters: dropping
      every other level from the map changes nothing but the recorded style. */
  lemma OnlyNearestLevelMatters(s: ListState, style: Style, k: int)
    requires style.listPropertiesMap.Some?
    requires IsNearestLevel(style.listPropertiesMap.value, s.level, k)
    ensures var m := style.listPropertiesMap.value;
            var trimmed := style.(listPropertiesMap := Some(map[k := m[k]]));
            ApplyStyles(s, style) == ApplyStyles(s, trimmed).(lastStyleApplied := Some(style))
  {
    var m := style.listPropertiesMap.value;
    var single := map[k := m[k]];
    var trimmed := style.(listPropertiesMap := Some(single));
    assert IsNearestLevel(single, s.level, k);
    assert PropertiesFor(s, style) == Some(m[k]);
    assert PropertiesFor(s, trimmed) == Some(m[k]);
    assert LabelStyleFont(trimmed, m[k]) == LabelStyleFont(style, m[k]);
  }

  /** When a level gives an image, the image is the list symbol, whether or
      not it also gives a bullet character. */
  lemma ImageOverridesBullet(s: ListState, style: Style, p: ListProperties)
    requires PropertiesFor(s, style) == Some(p)
    requires p.image.Some?
    ensures ApplyStyles(s, style).symbol == Chunk(Picture(p.image.value), StandardFont)
  {
  }

  /** A bullet character without an image is the list symbol, in the style's
      text font when the level asks for an explicit label style. */
  lemma BulletBecomesSymbol(s: ListState, style: Style, p: ListProperties)
    requires PropertiesFor(s, style) == Some(p)
    requires p.bulletChar.Some? && p.image.None?
    ensures ApplyStyles(s, style).symbol == Chunk(Text(p.bulletChar.value), LabelStyleFont(style, p))
  {
  }

  /** With a bullet or an image, start value, prefix, suffix and number
      format are all ignored: the numbering state stays as it was. */
  lemma BulletOrImageKeepsNumbering(s: ListState, style: Style, p: ListProperties)
    requires PropertiesFor(s, style) == Some(p)
    requires p.bulletChar.Some? || p.image.Some?
    ensures var r := ApplyStyles(s, style);
            && r.first == s.first
            && r.preSymbol == s.preSymbol && r.postSymbol == s.postSymbol
            && r.numbered == s.numbered && r.lettered == s.lettered
            && r.romanNumbered == s.romanNumbered && r.lowercase == s.lowercase
  {
  }

  /** The numeric branch on its own: each given setting is written, each
      absent one kept. */
  lemma NumberingSettings(s: ListState, p: ListProperties, font: Font)
    ensures var r := ApplyNumbering(s, p, font);
            && (p.startValue.Some? ==> r.first == p.startValue.value)
            && (p.startValue.None? ==> r.first == s.first)
            && (p.numPrefix.Some? ==> r.preSymbol == p.numPrefix.value)
            && (p.numPrefix.None? ==> r.preSymbol == s.preSymbol)
            && (p.numSuffix.Some? ==> r.postSymbol == p.numSuffix.value)
            && (p.numSuffix.None? ==> r.postSymbol == s.postSymbol)
            && r.symbol == Chunk(Text(p.numPrefix.GetOr("") + p.numSuffix.GetOr("")), font)
            && (p.numFormat.Some? ==>
                  && r.numbered
                  && r.lettered == p.numFormat.value.alphabetical
                  && r.romanNumbered == p.numFormat.value.roman
                  && r.lowercase == p.numFormat.value.lowercase)
            && (p.numFormat.None? ==>
                  && r.numbered == s.numbered && r.lettered == s.lettered
                  && r.romanNumbered == s.romanNumbered && r.lowercase == s.lowercase)
  {
  }

  /** With neither bullet nor image, each numbering setting the level gives
      is written and each one it leaves out keeps its earlier value. */
  lemma NumericBranchSettings(s: ListState, style: Style, p: ListProperties)
    requires PropertiesFor(s, style) == Some(p)
    requires p.bulletChar.None? && p.image.None?
    ensures var r := ApplyStyles(s, style);
            && (p.startValue.Some? ==> r.first == p.startValue.value)
            && (p.startValue.None? ==> r.first == s.first)
            && (p.numPrefix.Some? ==> r.preSymbol == p.numPrefix.value)
            && (p.numPrefix.None? ==> r.preSymbol == s.preSymbol)
            && (p.numSuffix.Some? ==> r.postSymbol == p.numSuffix.value)
            && (p.numSuffix.None? ==> r.postSymbol == s.postSymbol)
            && r.symbol == Chunk(Text(p.numPrefix.GetOr("") + p.numSuffix.GetOr("")), LabelStyleFont(style, p))
            && (p.numFormat.Some? ==>
                  && r.numbered
                  && r.lettered == p.numFormat.value.alphabetical
                  && r.romanNumbered == p.numFormat.value.roman
                  && r.lowercase == p.numFormat.value.lowercase)
            && (p.numFormat.None? ==>
                  && r.numbered == s.numbered && r.lettered == s.lettered
                  && r.romanNumbered == s.romanNumbered && r.lowercase == s.lowercase)
  {
    var font := LabelStyleFont(style, p);
    assert ApplyLabelKind(s, p, font) == ApplyNumbering(s, p, font);
    NumberingSettings(s, p, font);
  }

  /** The indentation after applying a style is the resolution of the found
      properties against the list's current indentation. */
  lemma IndentationFromProperties(s: ListState, style: Style, p: ListProperties)
    requires PropertiesFor(s, style) == Some(p)
    ensures var r := ApplyStyles(s, style);
            Indent(r.indentationLeft, r.symbolIndent) == ResolveIndent(p, Indent(s.indentationLeft, s.symbolIndent))
  {
  }

  /** Applying the numeric branch twice is applying it once. */
  lemma NumberingIdempotent(x: ListState, p: ListProperties, f: Font)
    ensures ApplyNumbering(ApplyNumbering(x, p, f), p, f) == ApplyNumbering(x, p, f)
  {
  }

  /** Choosing the label kind twice from the same properties is choosing it once. */
  lemma LabelKindIdempotent(x: ListState, p: ListProperties, f: Font)
    ensures ApplyLabelKind(ApplyLabelKind(x, p, f), p, f) == ApplyLabelKind(x, p, f)
  {
    if p.bulletChar.None? && p.image.None? {
      assert ApplyImage(ApplyBullet(x, p, f), p) == x;
      var n := ApplyNumbering(x, p, f);
      assert ApplyImage(ApplyBullet(n, p, f), p) == n;
      NumberingIdempotent(x, p, f);
    } else if p.image.Some? {
      var k := ApplyImage(ApplyBullet(x, p, f), p);
      assert k == x.(symbol := Chunk(Picture(p.image.value), StandardFont));
    } else {
      var k := ApplyImage(ApplyBullet(x, p, f), p);
      assert k == x.(symbol := Chunk(Text(p.bulletChar.value), f));
    }
  }

  /** Resolving indentation twice from the same properties is resolving it once. */
  lemma IndentationIdempotent(x: ListState, p: ListProperties)
    ensures ApplyIndentation(ApplyIndentation(x, p), p) == ApplyIndentation(x, p)
  {
  }

  /** The numeric branch does not read the indentation. */
  lemma NumberingIgnoresIndentation(x: ListState, p: ListProperties, f: Font, left: real, width: real)
    ensures ApplyNumbering(x.(indentationLeft := left, symbolIndent := width), p, f)
            == ApplyNumbering(x, p, f).(indentationLeft := left, symbolIndent := width)
  {
  }

  /** Choosing the label kind does not read the indentation. */
  lemma LabelKindIgnoresIndentation(x: ListState, p: ListProperties, f: Font, left: real, width: real)
    ensures ApplyLabelKind(x.(indentationLeft := left, symbolIndent := width), p, f)
            == ApplyLabelKind(x, p, f).(indentationLeft := left, symbolIndent := width)
  {
    var y := x.(indentationLeft := left, symbolIndent := width);
    var kx := ApplyImage(ApplyBullet(x, p, f), p);
    var ky := ApplyImage(ApplyBullet(y, p, f), p);
    assert ky == kx.(indentationLeft := left, symbolIndent := width);
    if p.bulletChar.None? && p.image.None? {
      NumberingIgnoresIndentation(kx, p, f, left, width);
    }
  }

  /** Configuring twice from the same properties is configuring once. */
  lemma ConfigureIdempotent(x: ListState, p: ListProperties, f: Font)
    ensures Configure(Configure(x, p, f), p, f) == Configure(x, p, f)
  {
    var k := ApplyLabelKind(x, p, f);
    var c := ApplyIndentation(k, p);
    LabelKindIgnoresIndentation(k, p, f, c.indentationLeft, c.symbolIndent);
    LabelKindIdempotent(x, p, f);
    assert c == k.(indentationLeft := c.indentationLeft, symbolIndent := c.symbolIndent);
    assert ApplyLabelKind(c, p, f) == c;
    IndentationIdempotent(k, p);
  }

  /** The numeric branch does not read the recorded style. */
  lemma NumberingIgnoresRecord(x: ListState, p: ListProperties, f: Font, recorded: Option<Style>)
    ensures ApplyNumbering(x.(lastStyleApplied := recorded), p, f) == ApplyNumbering(x, p, f).(lastStyleApplied := recorded)
  {
  }

  /** Choosing the label kind does not read the recorded style. */
  lemma LabelKindIgnoresRecord(x: ListState, p: ListProperties, f: Font, recorded: Option<Style>)
    ensures ApplyLabelKind(x.(lastStyleApplied := recorded), p, f) == ApplyLabelKind(x, p, f).(lastStyleApplied := recorded)
  {
    var y := x.(lastStyleApplied := recorded);
    var kx := ApplyImage(ApplyBullet(x, p, f), p);
    var ky := ApplyImage(ApplyBullet(y, p, f), p);
    assert ky == kx.(lastStyleApplied := recorded);
    if p.bulletChar.None? && p.image.None? {
      NumberingIgnoresRecord(kx, p, f, recorded);
    }
  }

  /** Resolving indentation does not read the recorded style. */
  lemma IndentationIgnoresRecord(x: ListState, p: ListProperties, recorded: Option<Style>)
    ensures ApplyIndentation(x.(lastStyleApplied := recorded), p) == ApplyIndentation(x, p).(lastStyleApplied := recorded)
  {
  }

  /** Configuring does not read the recorded style. */
  lemma ConfigureIgnoresRecord(x: ListState, p: ListProperties, f: Font, recorded: Option<Style>)
    ensures Configure(x.(lastStyleApplied := recorded), p, f) == Configure(x, p, f).(lastStyleApplied := recorded)
  {
    LabelKindIgnoresRecord(x, p, f, recorded);
    IndentationIgnoresRecord(ApplyLabelKind(x, p, f), p, recorded);
  }

  /** Applying the same style twice is the same as applying it once. */
  lemma ApplyStylesIdempotent(s: ListState, style: Style)
    ensures ApplyStyles(ApplyStyles(s, style), style) == ApplyStyles(s, style)
  {
    var r := ApplyStyles(s, style);
    assert PropertiesFor(r, style) == PropertiesFor(s, style);
    match PropertiesFor(s, style)
    case None =>
    case Some(p) =>
      var f := LabelStyleFont(style, p);
      var c := Configure(s, p, f);
      assert r == c.(lastStyleApplied := Some(style));
      ConfigureIgnoresRecord(c, p, f, Some(style));
      ConfigureIdempotent(s, p, f);
  }

  /** A list that numbers its items keeps numbering them after a style whose
      level gives a bullet: the numbering flags are not cleared, so the next
      paragraph still receives a generated number, not the bullet. */
  lemma NumberingSurvivesBulletStyle(s: ListState, style: Style, p: ListProperties, e: Element, lib: Library)
    requires IsNumbering(s)
    requires PropertiesFor(s, style) == Some(p)
    requires p.bulletChar.Some? && p.image.None?
    requires IsParagraph(e)
    ensures var r := ApplyStyles(s, style);
            var t := AddPart(r, e, true, lib);
            && IsNumbering(r)
            && t.items[|r.items|].itemLabel.content
               == Text(s.preSymbol + Numeral(s, GetIndex(s), lib) + s.postSymbol)
  {
    BulletOrImageKeepsNumbering(s, style, p);
  }

  // ------------------------------------------------------- appending items

  /** Every paragraph takes the current index and advances it by one in
      Java `int` arithmetic, labelled or not; below the largest `int` the
      advance is exactly one. */
  lemma ParagraphConsumesNumber(s: ListState, e: Element, addLabel: bool, lib: Library)
    requires IsParagraph(e)
    ensures GetIndex(AddPart(s, e, addLabel, lib)) == Wrap(GetIndex(s) + 1)
    ensures GetIndex(s) < MaxInt ==> GetIndex(AddPart(s, e, addLabel, lib)) == GetIndex(s) + 1
  {
  }

  /** A nested list takes no number, and its left indentation becomes
      relative to this list's; this list's own indentation is untouched. */
  lemma NestedListKeepsIndex(s: ListState, l: ListState, addLabel: bool, lib: Library)
    ensures var r := AddPart(s, ListElement(l), addLabel, lib);
            && GetIndex(r) == GetIndex(s)
            && r.items == s.items + [Nested(l.(indentationLeft := l.indentationLeft - s.indentationLeft))]
            && r.indentationLeft == s.indentationLeft
  {
  }

  /** Every item carries the list's label width as its left indentation and
      no right indentation, and its label is a text chunk drawn in the
      fallback font. */
  lemma ItemLayout(s: ListState, e: Element, addLabel: bool, lib: Library)
    requires IsParagraph(e)
    ensures var it := AddPart(s, e, addLabel, lib).items[|s.items|];
            && it.Item?
            && it.indentationLeft == s.symbolIndent
            && it.indentationRight == 0.0
            && it.itemLabel.font == LabelFont(s.symbol.font, e.runs, e.font)
            && it.itemLabel.content.Text?
            && it.body == e
  {
  }

  /** A numbered label is the prefix, the numeral of the current index and
      the suffix; letters win over roman numerals, roman numerals over
      digits (`String.valueOf` of the index), and those digits read back as
      the index. */
  lemma NumberedLabelShowsIndex(s: ListState, e: Element, lib: Library)
    requires IsParagraph(e) && IsNumbering(s)
    ensures var content := AddPart(s, e, true, lib).items[|s.items|].itemLabel.content;
            && (s.lettered ==>
                  content == Text(s.preSymbol + lib.alphabetic(GetIndex(s), s.lowercase) + s.postSymbol))
            && (!s.lettered && s.romanNumbered ==>
                  content == Text(s.preSymbol + lib.roman(GetIndex(s), s.lowercase) + s.postSymbol))
            && (!s.lettered && !s.romanNumbered ==>
                  content == Text(s.preSymbol + DecimalString(GetIndex(s)) + s.postSymbol))
            && ParseDecimal(DecimalString(GetIndex(s))) == GetIndex(s)
  {
    DecimalRoundTrip(GetIndex(s));
  }

  /** Without numbering, a label is a text chunk holding the list symbol's
      text, whatever the index: it depends neither on `first` nor on the items
      so far. A text symbol is copied as it is; an image symbol contributes
      only the library's text for the image, never the image itself. */
  lemma SymbolLabelIgnoresIndex(s: ListState, e: Element, lib: Library, first: Int32, items: seq<Entry>)
    requires IsParagraph(e) && !IsNumbering(s)
    ensures s.symbol.content.Text? ==>
              AddPart(s, e, true, lib).items[|s.items|].itemLabel.content == s.symbol.content
    ensures s.symbol.content.Picture? ==>
              AddPart(s, e, true, lib).items[|s.items|].itemLabel.content
              == Text(lib.imageText(s.symbol.content.image))
    ensures var t := s.(first := first, items := items);
            AddPart(t, e, true, lib).items[|t.items|].itemLabel
            == AddPart(s, e, true, lib).items[|s.items|].itemLabel
  {
  }

  /** The number of elements of a list item that are paragraphs. */
  function CountParagraphs(elements: seq<Element>): nat
    decreases |elements|
  {
    if |elements| == 0 then 0
    else (if IsParagraph(elements[0]) then 1 else 0) + CountParagraphs(elements[1..])
  }

  /** Two wrapped advances in a row are one wrapped advance by their sum. */
  lemma WrapChain(i: int, j: int, k: int, d: int, c: int)
    requires j == Wrap(i + d) && k == Wrap(j + c)
    ensures k == Wrap(i + (d + c))
  {
    WrapAbsorbs(i + d, c);
  }

  /** Appending no elements changes nothing. */
  lemma NoPartsStep(s: ListState, elements: seq<Element>, addLabel: bool, lib: Library)
    requires |elements| == 0
    ensures AddParts(s, elements, addLabel, lib) == s && CountParagraphs(elements) == 0
  {
  }

  /** The first element advances the index by one if it is a paragraph, else
      by none; the rest are appended from there without a label. */
  lemma FirstPartStep(s: ListState, elements: seq<Element>, addLabel: bool, lib: Library)
    requires |elements| > 0
    ensures GetIndex(AddPart(s, elements[0], addLabel, lib))
            == Wrap(GetIndex(s) + (if IsParagraph(elements[0]) then 1 else 0))
    ensures GetIndex(AddParts(s, elements, addLabel, lib))
            == GetIndex(AddParts(AddPart(s, elements[0], addLabel, lib), elements[1..], false, lib))
    ensures CountParagraphs(elements) == (if IsParagraph(elements[0]) then 1 else 0) + CountParagraphs(elements[1..])
  {
  }

  /** Appending the elements of a list item advances the index by the
      number of paragraphs among them: nested lists and other elements take
      no number. */
  lemma {:induction false} AddPartsAdvancesIndex(s: ListState, elements: seq<Element>, addLabel: bool, lib: Library)
    ensures GetIndex(AddParts(s, elements, addLabel, lib)) == Wrap(GetIndex(s) + CountParagraphs(elements))
    decreases |elements|
  {
    // The step lemmas' contracts carry the whole argument; the definitions
    // are hidden to keep the solver off them.
    hide *;
    if |elements| > 0 {
      AddPartsAdvancesIndex(AddPart(s, elements[0], addLabel, lib), elements[1..], false, lib);
      FirstPartStep(s, elements, addLabel, lib);
      WrapChain(GetIndex(s), GetIndex(AddPart(s, elements[0], addLabel, lib)),
                GetIndex(AddParts(AddPart(s, elements[0], addLabel, lib), elements[1..], false, lib)),
                if IsParagraph(elements[0]) then 1 else 0, CountParagraphs(elements[1..]));
    } else {
      NoPartsStep(s, elements, addLabel, lib);
    }
  }

  /** Appending a list item advances the index by its paragraph count. */
  lemma ListItemAdvancesIndex(s: ListState, e: Element, lib: Library)
    requires e.ListItem?
    ensures GetIndex(AddElement(s, e, lib)) == Wrap(GetIndex(s) + CountParagraphs(e.elements))
  {
    AddPartsAdvancesIndex(s, e.elements, true, lib);
  }

  /** An entry that shows no label text: a nested list, or an item whose label is empty. */
  predicate IsEmptyLabelOrNested(entry: Entry) {
    entry.Item? ==> entry.itemLabel.content == Text("")
  }

  /** Elements appended without a label all get an empty label. */
  lemma {:induction false} UnlabelledPartsGetEmptyLabels(s: ListState, elements: seq<Element>, lib: Library)
    ensures forall j :: |s.items| <= j < |AddParts(s, elements, false, lib).items| ==>
              IsEmptyLabelOrNested(AddParts(s, elements, false, lib).items[j])
    decreases |elements|
  {
    if |elements| > 0 {
      var s1 := AddPart(s, elements[0], false, lib);
      UnlabelledPartsGetEmptyLabels(s1, elements[1..], lib);
      var r := AddParts(s1, elements[1..], false, lib);
      assert r == AddParts(s, elements, false, lib);
      forall j | |s.items| <= j < |r.items|
        ensures IsEmptyLabelOrNested(r.items[j])
      {
        if j < |s1.items| {
          assert r.items[..|s1.items|][j] == s1.items[j];
          assert j == |s.items|;
        }
      }
    }
  }

  /** Only the first element of a list item is offered a label: every item
      that a later element produces has an empty label. */
  lemma OnlyFirstElementLabelled(s: ListState, e: Element, lib: Library)
    requires e.ListItem? && |e.elements| > 0
    ensures var r := AddElement(s, e, lib);
            var later := if e.elements[0].OtherElement? then |s.items| else |s.items| + 1;
            forall j :: later <= j < |r.items| ==> IsEmptyLabelOrNested(r.items[j])
  {
    var s1 := AddPart(s, e.elements[0], true, lib);
    UnlabelledPartsGetEmptyLabels(s1, e.elements[1..], lib);
    assert AddElement(s, e, lib) == AddParts(s1, e.elements[1..], false, lib);
  }

  /** A list item of one element appends that element with a label. */
  lemma AddSingleElementItem(s: ListState, runs: seq<Font>, font: Font, e: Element, lib: Library)
    ensures AddElement(s, ListItem(runs, font, [e]), lib) == AddPart(s, e, true, lib)
  {
    assert [e][1..] == [];
    var s1 := AddPart(s, e, true, lib);
    assert AddParts(s, [e], true, lib) == AddParts(s1, [], false, lib);
  }

  /** A list item of two elements appends the first with a label and the second without. */
  lemma AddTwoElementItem(s: ListState, runs: seq<Font>, font: Font, e: Element, e2: Element, lib: Library)
    ensures AddElement(s, ListItem(runs, font, [e, e2]), lib)
            == AddPart(AddPart(s, e, true, lib), e2, false, lib)
  {
    assert [e, e2][1..] == [e2];
    assert [e2][1..] == [];
    var s1 := AddPart(s, e, true, lib);
    var s2 := AddPart(s1, e2, false, lib);
    assert AddParts(s, [e, e2], true, lib) == AddParts(s1, [e2], false, lib);
    assert AddParts(s1, [e2], false, lib) == AddParts(s2, [], false, lib);
  }

  /** The elements that produce an entry, in order: every one but the
      elements the list ignores. */
  function Entries(elements: seq<Element>): seq<Element>
    decreases |elements|
  {
    if |elements| == 0 then []
    else (if elements[0].OtherElement? then [] else [elements[0]]) + Entries(elements[1..])
  }

  /** Whether `entry` is what appending `e` to a list indented by `indent`,
      with label width `symbolIndent` and symbol font `symbolFont`, produces:
      an item wrapping a paragraph, indented by the label width on the left
      and not at all on the right, with its label in the fallback font; or
      the nested list with its indentation made relative. */
  predicate EntryFor(entry: Entry, e: Element, indent: real, symbolIndent: real, symbolFont: Font) {
    match e
    case ListElement(l) => entry == Nested(l.(indentationLeft := l.indentationLeft - indent))
    case OtherElement => false
    case _ =>
      && entry.Item? && entry.body == e
      && entry.indentationLeft == symbolIndent && entry.indentationRight == 0.0
      && entry.itemLabel.font == LabelFont(symbolFont, e.runs, e.font)
  }

  /** `r` is `s` with one entry for each of `es` appended after the existing
      ones, in order. */
  predicate AppendsEntries(s: ListState, r: ListState, es: seq<Element>) {
    && |r.items| == |s.items| + |es|
    && r.items[..|s.items|] == s.items
    && forall j :: 0 <= j < |es| ==>
         EntryFor(r.items[|s.items| + j], es[j], s.indentationLeft, s.symbolIndent, s.symbol.font)
  }

  /** One element appends its own entry, if it has one. */
  lemma PartAppends(s: ListState, e: Element, addLabel: bool, lib: Library)
    ensures AppendsEntries(s, AddPart(s, e, addLabel, lib), if e.OtherElement? then [] else [e])
    ensures AddPart(s, e, addLabel, lib).indentationLeft == s.indentationLeft
    ensures AddPart(s, e, addLabel, lib).symbolIndent == s.symbolIndent
    ensures AddPart(s, e, addLabel, lib).symbol == s.symbol
  {
  }

  /** Appending `a` and then `b` appends `a + b`. */
  lemma AppendsCompose(s: ListState, m: ListState, r: ListState, a: seq<Element>, b: seq<Element>)
    requires AppendsEntries(s, m, a) && AppendsEntries(m, r, b)
    requires m.indentationLeft == s.indentationLeft
    requires m.symbolIndent == s.symbolIndent && m.symbol == s.symbol
    ensures AppendsEntries(s, r, a + b)
  {
    assert r.items[..|s.items|] == r.items[..|m.items|][..|s.items|];
    forall j | 0 <= j < |a + b|
      ensures EntryFor(r.items[|s.items| + j], (a + b)[j], s.indentationLeft, s.symbolIndent, s.symbol.font)
    {
      if j < |a| {
        assert r.items[|s.items| + j] == r.items[..|m.items|][|s.items| + j];
      } else {
        assert (a + b)[j] == b[j - |a|];
        assert |s.items| + j == |m.items| + (j - |a|);
      }
    }
  }

  /** Appending elements appends exactly one entry per element that is not
      ignored, in the elements' order: an item wrapping each paragraph and
      each nested list. The first element's entry is the one appended with
      `addLabel`. */
  lemma {:induction false} AddPartsAppendsEntries(s: ListState, elements: seq<Element>, addLabel: bool, lib: Library)
    ensures AppendsEntries(s, AddParts(s, elements, addLabel, lib), Entries(elements))
    ensures |elements| > 0 ==>
              AddParts(s, elements, addLabel, lib).items[..|AddPart(s, elements[0], addLabel, lib).items|]
              == AddPart(s, elements[0], addLabel, lib).items
    decreases |elements|
  {
    if |elements| > 0 {
      var s1 := AddPart(s, elements[0], addLabel, lib);
      var first := if elements[0].OtherElement? then [] else [elements[0]];
      AddPartsAppendsEntries(s1, elements[1..], false, lib);
      PartAppends(s, elements[0], addLabel, lib);
      assert Entries(elements) == first + Entries(elements[1..]);
      assert AddParts(s, elements, addLabel, lib) == AddParts(s1, elements[1..], false, lib);
      AppendsCompose(s, s1, AddParts(s1, elements[1..], false, lib), first, Entries(elements[1..]));
    } else {
      assert AddParts(s, elements, addLabel, lib) == s;
    }
  }

  /** A list item appends one entry per element that is not ignored, in
      order; its first element is appended with a label. */
  lemma ListItemAppendsEntries(s: ListState, e: Element, lib: Library)
    requires e.ListItem?
    ensures AppendsEntries(s, AddElement(s, e, lib), Entries(e.elements))
    ensures |e.elements| > 0 ==>
              AddElement(s, e, lib).items[..|AddPart(s, e.elements[0], true, lib).items|]
              == AddPart(s, e.elements[0], true, lib).items
  {
    AddPartsAppendsEntries(s, e.elements, true, lib);
  }

  /** The list of the worked example below, after its style is applied. */
  function ExampleList(): ListState {
    var props := ListProperties(None, false, None, Some(5), Some("("), Some(")"),
                                Some(NumFormat(false, false, false)), None, None, None, None);
    ApplyStyles(New(0, 0), Style(Some(map[0 := props]), None))
  }

  /** The example style numbers from 5 in decimal, between "(" and ")". */
  lemma ExampleListNumbering()
    ensures var s := ExampleList();
            && s.items == [] && s.first == 5
            && s.numbered && !s.lettered && !s.romanNumbered
            && s.preSymbol == "(" && s.postSymbol == ")"
  {
    var props := ListProperties(None, false, None, Some(5), Some("("), Some(")"),
                                Some(NumFormat(false, false, false)), None, None, None, None);
    assert IsNearestLevel(map[0 := props], 0, 0);
    NumericBranchSettings(New(0, 0), Style(Some(map[0 := props]), None), props);
  }

  /** Facts about one labelled paragraph appended to a decimal-numbered list. */
  lemma DecimalStep(s: ListState, e: Element, lib: Library)
    requires IsParagraph(e) && s.numbered && !s.lettered && !s.romanNumbered
    ensures var r := AddPart(s, e, true, lib);
            && r.items == s.items + [r.items[|s.items|]]
            && r.items[|s.items|].itemLabel.content == Text(s.preSymbol + DecimalString(GetIndex(s)) + s.postSymbol)
            && r.first == s.first && r.numbered && !r.lettered && !r.romanNumbered
            && r.preSymbol == s.preSymbol && r.postSymbol == s.postSymbol
  {
  }

  /** A worked example: a list numbered in decimal from 5 with prefix "("
      and suffix ")", as `ExampleList` is, receiving (through the private
      `addElement`) the elements of four list items in turn: a paragraph; a
      nested list; two paragraphs; a paragraph (`AddSingleElementItem` and
      `AddTwoElementItem` relate list items to these steps). The first item
      is labelled "(5)"; the nested list takes no number; the next paragraph
      is labelled "(6)"; the paragraph after it in the same item gets an
      empty label yet still consumes a number, so the last item is labelled
      "(8)". */
  lemma ParenthesisedNumberingExample(s0: ListState, para: Element, sub: ListState, lib: Library)
    requires s0.items == [] && s0.first == 5
    requires s0.numbered && !s0.lettered && !s0.romanNumbered
    requires s0.preSymbol == "(" && s0.postSymbol == ")"
    requires para == Paragraph([], StandardFont)
    ensures var s1 := AddPart(s0, para, true, lib);
            var s2 := AddPart(s1, ListElement(sub), true, lib);
            var s3 := AddPart(AddPart(s2, para, true, lib), para, false, lib);
            var s4 := AddPart(s3, para, true, lib);
            && |s4.items| == 5
            && s4.items[0].itemLabel.content == Text("(5)")
            && s4.items[1].Nested?
            && s4.items[2].itemLabel.content == Text("(6)")
            && s4.items[3].itemLabel.content == Text("")
            && s4.items[4].itemLabel.content == Text("(8)")
  {
    var s1 := AddPart(s0, para, true, lib);
    DecimalStep(s0, para, lib);
    assert GetIndex(s0) == 5;
    assert DecimalString(5) == "5";
    var s2 := AddPart(s1, ListElement(sub), true, lib);
    assert s2.items == s1.items + [s2.items[1]];
    assert GetIndex(s2) == 6;
    var s25 := AddPart(s2, para, true, lib);
    DecimalStep(s2, para, lib);
    assert DecimalString(6) == "6";
    var s3 := AddPart(s25, para, false, lib);
    assert s3.items == s25.items + [s3.items[3]];
    assert GetIndex(s3) == 8;
    var s4 := AddPart(s3, para, true, lib);
    DecimalStep(s3, para, lib);
    assert DecimalString(8) == "8";
  }

  /** Accessors: a list keeps its owner, and remembers the last style applied
      to it however many elements are appended afterwards. */
  lemma AccessorsAfterAppending(s: ListState, style: Style, e: Element, lib: Library)
    ensures var r := AddElement(ApplyStyles(s, style), e, lib);
            GetLastStyleApplied(r) == Some(style) && GetParent(r) == GetParent(s)
  {
  }
}

=== FILE: stylable_list.dfy ===
/** One list of a document being converted to PDF: its numbering state, its
    label kind, its indentation, and the items appended to it so far.
    Each operation of the list is a pure function from state to state. */
module StylableList {
  import opened Wrappers
  import opened JavaInt
  import opened Decimal
  import opened Chunks
  import opened Styles
  import opened LevelCascade
  import opened Indentation

  /** The container that owns a list, known only by identity. */
  type ContainerRef = nat

  /** A list's state. `first` is the number of the list's first item,
      shifted down by one for every nested list appended (see `AddPart`);
      `items` is the rendering library's item list, whose length takes part
      in numbering. */
  datatype ListState = ListState(
    parent: ContainerRef,
    level: int,
    first: Int32,
    items: seq<Entry>,
    numbered: bool,
    lettered: bool,
    romanNumbered: bool,
    lowercase: bool,
    preSymbol: string,
    postSymbol: string,
    symbol: Chunk,
    indentationLeft: real,
    symbolIndent: real,
    lastStyleApplied: Option<Style>)

  /** An entry of a list: a labelled item wrapping one paragraph, or a nested list. */
  datatype Entry =
    | Item(itemLabel: Chunk, indentationLeft: real, indentationRight: real, body: Element)
    | Nested(list: ListState)

  /** What can be appended. A paragraph is reduced to the fonts of its runs
      and its own font. A list item is itself a paragraph that also carries
      the sequence of elements it was built from. */
  datatype Element =
    | Paragraph(runs: seq<Font>, font: Font)
    | ListItem(runs: seq<Font>, font: Font, elements: seq<Element>)
    | ListElement(list: ListState)
    | OtherElement

  /** Anything the list treats as a paragraph (a list item is one too). */
  predicate IsParagraph(e: Element) {
    e.Paragraph? || e.ListItem?
  }

  /** What the rendering library supplies. `alphabetic` and `roman` map an
      index and a lower-case flag to a numeral's text; `imageText` is the text
      content the library keeps for a chunk holding an image, which is all a
      label copied from an image symbol receives. */
  datatype Library = Library(
    alphabetic: (int, bool) -> string,
    roman: (int, bool) -> string,
    imageText: ImageRef -> string)

  /** A new list at `level`, owned by `parent`: unnumbered, with empty
      symbol, prefix and suffix, numbering from 1, no indentation. */
  function New(parent: ContainerRef, level: int): (r: ListState)
    ensures GetParent(r) == parent && r.level == level && GetLastStyleApplied(r).None?
    ensures r.items == [] && GetIndex(r) == 1
    ensures !r.numbered && !r.lettered && !r.romanNumbered && !r.lowercase
    ensures r.symbol.content == Text("") && IsStandardFont(r.symbol.font)
    ensures r.preSymbol == "" && r.postSymbol == ""
    ensures r.indentationLeft == 0.0 && r.symbolIndent == 0.0
  {
    ListState(parent, level, 1, [], false, false, false, false, "", "",
              Chunk(Text(""), StandardFont), 0.0, 0.0, None)
  }

  /** The number the next paragraph appended will carry: `first` plus the
      number of entries, computed in Java `int` arithmetic. */
  function GetIndex(s: ListState): (r: Int32)
    ensures (s.first + |s.items| - r) % Modulus == 0
    ensures MinInt <= s.first + |s.items| <= MaxInt ==> r == s.first + |s.items|
  {
    Wrap(s.first + |s.items|)
  }

  /** Sets the number of the list's first item; nothing else changes. */
  function SetFirst(s: ListState, first: Int32): (r: ListState)
    ensures GetIndex(r) == Wrap(first + |s.items|)
    ensures r.first == first && r.(first := s.first) == s
  {
    s.(first := first)
  }

  /** The style most recently applied, if any; `ApplyStyles` sets it and
      nothing else changes it. */
  function GetLastStyleApplied(s: ListState): (r: Option<Style>)
    ensures r == s.lastStyleApplied
  {
    s.lastStyleApplied
  }

  /** The container owning the list, fixed at construction. */
  function GetParent(s: ListState): (r: ContainerRef)
    ensures r == s.parent
  {
    s.parent
  }

  // ---------------------------------------------------------------- styles

  /** The font of a label chunk built for `p`: the style's text font when the
      level asks for an explicit label style and the style has one, else the
      standard font. */
  function LabelStyleFont(style: Style, p: ListProperties): Font {
    if p.labelStyleSpecified && style.textProperties.Some? && style.textProperties.value.font.Some?
    then style.textProperties.value.font.value
    else StandardFont
  }

  /** A bullet character becomes the list symbol, drawn in `labelFont`. */
  function ApplyBullet(s: ListState, p: ListProperties, labelFont: Font): ListState {
    if p.bulletChar.Some? then s.(symbol := Chunk(Text(p.bulletChar.value), labelFont)) else s
  }

  /** An image becomes the list symbol, replacing any bullet just set. */
  function ApplyImage(s: ListState, p: ListProperties): ListState {
    if p.image.Some? then s.(symbol := Chunk(Picture(p.image.value), StandardFont)) else s
  }

  /** Numbering settings, each written only when the level gives it. The
      symbol becomes the prefix followed by the suffix, drawn in `labelFont`. */
  function ApplyNumbering(s: ListState, p: ListProperties, labelFont: Font): ListState {
    var prefix := p.numPrefix.GetOr("");
    var suffix := p.numSuffix.GetOr("");
    var s1 := s.(first := p.startValue.GetOr(s.first),
                 preSymbol := p.numPrefix.GetOr(s.preSymbol),
                 postSymbol := p.numSuffix.GetOr(s.postSymbol),
                 symbol := Chunk(Text(prefix + suffix), labelFont));
    match p.numFormat
    case None => s1
    case Some(f) =>
      s1.(numbered := true, lettered := f.alphabetical, romanNumbered := f.roman, lowercase := f.lowercase)
  }

  /** Label kind: bullet, then image, and numbering only when neither is given. */
  function ApplyLabelKind(s: ListState, p: ListProperties, labelFont: Font): (r: ListState)
    ensures r.parent == s.parent && r.level == s.level && r.items == s.items
    ensures r.lastStyleApplied == s.lastStyleApplied
    ensures r.indentationLeft == s.indentationLeft && r.symbolIndent == s.symbolIndent
  {
    var s1 := ApplyImage(ApplyBullet(s, p, labelFont), p);
    if p.bulletChar.None? && p.image.None? then ApplyNumbering(s1, p, labelFont) else s1
  }

  function ApplyIndentation(s: ListState, p: ListProperties): (r: ListState)
    ensures r == s.(indentationLeft := r.indentationLeft, symbolIndent := r.symbolIndent)
    ensures IsNonNegative(Indent(s.indentationLeft, s.symbolIndent)) ==>
      IsNonNegative(Indent(r.indentationLeft, r.symbolIndent))
  {
    var i := ResolveIndent(p, Indent(s.indentationLeft, s.symbolIndent));
    s.(indentationLeft := i.left, symbolIndent := i.labelWidth)
  }

  /** The list configured by the properties `p` of its level. */
  function Configure(s: ListState, p: ListProperties, labelFont: Font): (r: ListState)
    ensures r.parent == s.parent && r.level == s.level && r.items == s.items
    ensures r.lastStyleApplied == s.lastStyleApplied
    ensures IsNonNegative(Indent(s.indentationLeft, s.symbolIndent)) ==>
      IsNonNegative(Indent(r.indentationLeft, r.symbolIndent))
  {
    ApplyIndentation(ApplyLabelKind(s, p, labelFont), p)
  }

  /** The list properties `style` gives the list, found by the level cascade. */
  function PropertiesFor(s: ListState, style: Style): Option<ListProperties> {
    match style.listPropertiesMap
    case None => None
    case Some(m) => LookupLevel(m, s.level)
  }

  /** Applies `style`: when the level cascade finds properties for the
      list's level, sets label kind and indentation from them; in every case
      records `style` as the last one applied. */
  function ApplyStyles(s: ListState, style: Style): (r: ListState)
    ensures r.lastStyleApplied == Some(style)
    ensures r.parent == s.parent && r.level == s.level && r.items == s.items
    ensures PropertiesFor(s, style).None? ==> r == s.(lastStyleApplied := Some(style))
    ensures IsNonNegative(Indent(s.indentationLeft, s.symbolIndent)) ==>
      IsNonNegative(Indent(r.indentationLeft, r.symbolIndent))
  {
    var configured :=
      match PropertiesFor(s, style)
      case None => s
      case Some(p) => Configure(s, p, LabelStyleFont(style, p));
    configured.(lastStyleApplied := Some(style))
  }

  // ---------------------------------------------------------------- items

  /** Whether labels are generated numbers rather than the list symbol. */
  predicate IsNumbering(s: ListState) {
    s.numbered || s.lettered || s.romanNumbered
  }

  /** The numeral for `index`: letters take precedence over roman numerals,
      and roman numerals over decimal digits. */
  function Numeral(s: ListState, index: int, lib: Library): (r: string)
    ensures s.lettered ==> r == lib.alphabetic(index, s.lowercase)
    ensures !s.lettered && s.romanNumbered ==> r == lib.roman(index, s.lowercase)
    ensures !s.lettered && !s.romanNumbered ==> r == DecimalString(index) && ParseDecimal(r) == index
  {
    DecimalRoundTrip(index);
    if s.lettered then lib.alphabetic(index, s.lowercase)
    else if s.romanNumbered then lib.roman(index, s.lowercase)
    else DecimalString(index)
  }

  /** The text content of a chunk: an image chunk has only the library's
      text for it. */
  function ContentText(c: Content, lib: Library): string {
    match c
    case Text(t) => t
    case Picture(img) => lib.imageText(img)
  }

  /** The label of the next paragraph appended. Every label is a text chunk:
      without numbering it is a new chunk made from the symbol's text. */
  function ItemLabel(s: ListState, addLabel: bool, font: Font, lib: Library): (r: Chunk)
    ensures r.font == font && r.content.Text?
    ensures !addLabel ==> r.content == Text("")
  {
    if !addLabel then Chunk(Text(""), font)
    else if IsNumbering(s) then
      Chunk(Text(s.preSymbol + Numeral(s, Wrap(s.first + |s.items|), lib) + s.postSymbol), font)
    else Chunk(Text(ContentText(s.symbol.content, lib)), font)
  }

  /** The private `addElement(element, addLabel)`: a paragraph becomes a
      labelled item; a nested list has its left indentation made relative to
      this list and is appended with `first` lowered by one; anything else is
      ignored. */
  function AddPart(s: ListState, e: Element, addLabel: bool, lib: Library): (r: ListState)
    ensures |r.items| == |s.items| + (if e.OtherElement? then 0 else 1)
    ensures r.items[..|s.items|] == s.items
    ensures IsParagraph(e) ==> GetIndex(r) == Wrap(GetIndex(s) + 1)
    ensures e.ListElement? ==> GetIndex(r) == GetIndex(s)
    ensures e.OtherElement? ==> r == s
    ensures IsParagraph(e) ==> r.items[|s.items|].Item?
    ensures IsParagraph(e) && !addLabel ==> r.items[|s.items|].itemLabel.content == Text("")
    ensures e.ListElement? ==> r.items[|s.items|].Nested?
    ensures r == s.(first := r.first, items := r.items)
  {
    match e
    case ListElement(l) => AppendNested(s, l)
    case OtherElement => s
    case _ => AppendItem(s, e, addLabel, lib)
  }

  /** A paragraph becomes an item labelled in the fallback font and indented
      by the symbol indent; it takes the next number. */
  function AppendItem(s: ListState, e: Element, addLabel: bool, lib: Library): (r: ListState)
    requires IsParagraph(e)
    ensures |r.items| == |s.items| + 1 && r.items[..|s.items|] == s.items
    ensures GetIndex(r) == Wrap(GetIndex(s) + 1)
    ensures r.items[|s.items|].Item? && r.items[|s.items|].body == e
    ensures !addLabel ==> r.items[|s.items|].itemLabel.content == Text("")
    ensures r == s.(items := r.items)
  {
    WrapAbsorbs(s.first + |s.items|, 1);
    var font := LabelFont(s.symbol.font, e.runs, e.font);
    s.(items := s.items + [Item(ItemLabel(s, addLabel, font, lib), s.symbolIndent, 0.0, e)])
  }

  /** A nested list is appended with its left indentation made relative to
      this list's, and `first` lowered by one so that the index stays put. */
  function AppendNested(s: ListState, l: ListState): (r: ListState)
    ensures |r.items| == |s.items| + 1 && r.items[..|s.items|] == s.items
    ensures GetIndex(r) == GetIndex(s)
    ensures r.items[|s.items|].Nested?
    ensures r == s.(first := r.first, items := r.items)
  {
    WrapAbsorbs(s.first - 1, |s.items| + 1);
    s.(first := Wrap(s.first - 1),
       items := s.items + [Nested(l.(indentationLeft := l.indentationLeft - s.indentationLeft))])
  }

  /** Appends the elements of a list item in order; only the first is offered a label. */
  function AddParts(s: ListState, elements: seq<Element>, addLabel: bool, lib: Library): (r: ListState)
    ensures |r.items| >= |s.items| && r.items[..|s.items|] == s.items
    ensures r == s.(first := r.first, items := r.items)
    decreases |elements|
  {
    if |elements| == 0 then s
    else AddParts(AddPart(s, elements[0], addLabel, lib), elements[1..], false, lib)
  }

  /** The public `addElement(element)`: a list item contributes its
      elements, anything else is ignored. */
  function AddElement(s: ListState, e: Element, lib: Library): (r: ListState)
    ensures |r.items| >= |s.items| && r.items[..|s.items|] == s.items
    ensures r == s.(first := r.first, items := r.items)
    ensures !e.ListItem? ==> r == s
  {
    if e.ListItem? then AddParts(s, e.elements, true, lib) else s
  }
}

=== FILE: styles.dfy ===
/** The style records the list engine consumes: per-level list properties and
    a style's text properties. A record field that Java leaves `null` is an
    `Option.None`. */
module Styles {
  import opened Wrappers
  import opened JavaInt
  import opened Chunks

  /** The number format of a numbered level: letters, roman numerals or
      (neither) decimal digits, in lower or upper case. */
  datatype NumFormat = NumFormat(alphabetical: bool, roman: bool, lowercase: bool)

  /** The list properties of one level. An image's optional absolute width
      and height belong to the image library and are not kept here. */
  datatype ListProperties = ListProperties(
    bulletChar: Option<string>,
    labelStyleSpecified: bool,
    image: Option<ImageRef>,
    startValue: Option<Int32>,
    numPrefix: Option<string>,
    numSuffix: Option<string>,
    numFormat: Option<NumFormat>,
    marginLeft: Option<real>,
    textIndent: Option<real>,
    spaceBefore: Option<real>,
    minLabelWidth: Option<real>)

  datatype TextProperties = TextProperties(font: Option<Font>)

  /** A style: a sparse map from list level to that level's properties, and
      the text properties whose font labels may borrow. */
  datatype Style = Style(
    listPropertiesMap: Option<map<int, ListProperties>>,
    textProperties: Option<TextProperties>)
}

=== FILE: wrappers.dfy ===
/** Optional values, standing in for Java's `null` references. */
module Wrappers {

  /** `None` plays the role of a Java `null`. */
  datatype Option<+T> = None | Some(value: T) {

    /** The wrapped value, or `default` when there is none. */
    function GetOr(default: T): T {
      match this
      case Some(v) => v
      case None => default
    }
  }
}
